=== FILE: README.md ===
# Uptime monitor: alerting state machine

A Dafny model of the core of a scheduled uptime monitor (`monitor.py`). Each
invocation probes a list of URLs. It moves every URL's saved entry one step
through an up/down state machine, debounced on consecutive failures, and
collects DOWN, "still down" reminder and recovery alerts into two batches. It
saves the new entries in a schema-tagged snapshot and exits with 2 (no URLs),
1 (something is down) or 0 (everything is up).

Modules:

- `Settings` (`settings.dfy`): the behaviour knobs, including the threshold clamp `max(1, …)`.
- `Probe` (`probe.dfy`): `check_url`'s classification of a response into `(ok, message)`.
- `Transition` (`transition.dfy`): the entry, `empty_entry`, and the step. The step takes the previous entry and a probe outcome and gives the next entry and the alert.
- `Streaks` (`streaks.dfy`): one URL, listed once per run, followed over successive runs under an unchanged configuration and schema version, with lemmas about streaks of consecutive failures. These cover the debounce threshold, reminder cadence and reminders switched off.
- `StateStore` (`state_store.dfy`): loading with the schema guard, and saving.
- `Monitor` (`monitor.dfy`): one invocation. It covers the loop over the URLs, alert batching, notifications, the saved snapshot and the exit code.
- `Text`, `Wrappers`: decimal rendering of status codes, `"\n".join`, and `Option`.

Two points where the code differs from what a reader might expect. The model follows the code in both.

- One might expect two runs with identical probe outcomes to persist identical entries. The code does not do this: the `ok` or `fail` counter advances on every run. `Monitor.RerunChangesSavedEntries` proves that, with no URL listed twice, the saved entries of the second run always differ from those of the first. With a repeated URL they can coincide: `Monitor.RerunWithRepeatedUrlCanRepeat` gives such a list.
- `prev.get(u, …)` returns the dictionary stored in the loaded mapping, and the loop mutates it in place. So a URL listed twice is stepped twice. A later visit starts from the previous visit's result only when the URL was loaded. A URL that was not loaded starts again from a fresh entry on every visit. `Monitor.RepeatedUrl` states this for any list. Some lemmas exclude repeated URLs. `FirstVisit` and `LastUrlIsOwnStep` need the URL they are about not to be listed before it, and `SavedEntryOfUrlListedOnce` needs it listed exactly once. `DistinctUrlsAreIndependent`, `DistinctBatches` and `RerunChangesSavedEntries` need no URL to be listed twice. All the other `Monitor` lemmas hold for any URL list. The `Streaks` lemmas follow one entry from run to run, so they describe a URL listed exactly once per run, under an unchanged configuration and schema version; `Monitor.SavedEntryOfUrlListedOnce` is the bridge from a run to one step of such a URL.

## Model

| member | source | states |
|---|---|---|
| Settings.ClampThreshold | monitor.py:17 | the threshold is at least 1. It equals the configured value when that is at least 1, and is 1 otherwise |
| Settings.MakeConfig | monitor.py:13-18 | the configuration keeps the reminder interval, the pattern and the schema version as given, and its threshold is the configured one clamped to at least 1 |
| Probe.CheckUrl | monitor.py:27-40 | the probe is ok iff the request completed with a status below 400 and, when a pattern is set, the pattern matched. The message starts with the URL and names the status code, the missing content or the transport error |
| Probe.ErrorStatusIsRecoverable | monitor.py:34-35 | an error status is reported as such even when the content check would fail, and the status code can be read back from the message |
| Text.Decimal | monitor.py:35 | Python's `str` of a status code: a non-empty string, starting with a digit iff the code is not negative, and otherwise a minus sign followed by the digits of its magnitude. Every later character is a digit, and there is no leading zero |
| Text.Join | monitor.py:124 | `"\n".join`: nothing for no parts, and the part itself for one part; `JoinAppend` gives the longer lists |
| Text.JoinAppend | monitor.py:124-126 | adding one more alert to a non-empty batch extends the joined text by the separator and that alert |
| Text.DecimalRoundTrip | monitor.py:35 | the decimal rendering of a status code loses nothing: reading it back gives the code |
| Transition.EmptyEntry | monitor.py:72-79 | a URL seen for the first time starts up, with both counters and both timestamps at 0 |
| Transition.Step | monitor.py:99-118 | after any step exactly one streak counter runs. A success adds one to `ok` and clears `fail`; a failure does the reverse. The entry is up after the step iff the probe succeeded, or it was up and the failure streak is still below the threshold. So recovery is immediate and going down is debounced |
| Transition.AlertsFollowTransitions | monitor.py:99-118 | a recovery alert goes out iff down turns up, and a DOWN alert iff up turns down. A reminder only while down and failing. `last_change` moves only on a status change, to `now`. `last_down_alert` moves only on a DOWN alert or reminder, to `now`. A quiet step leaves the status and both timestamps alone |
| Transition.RecoveryIsImmediate | monitor.py:99-105 | a down entry that probes ok becomes up with `last_change = now` and sends exactly the recovery text, whatever its failure count |
| Transition.SuccessWhileUpIsQuiet | monitor.py:99-102 | an up entry that probes ok only extends its success streak and sends nothing |
| Transition.FailureWhileUp | monitor.py:106-114 | an up entry that fails goes down iff the new failure count reaches the threshold. It then sets both timestamps to `now` and sends the probe message as the DOWN alert; otherwise only the counters change |
| Transition.FailureWhileDown | monitor.py:115-118 | a down entry that fails stays down with `last_change` kept. It sends `msg + " (still down)"` and records `now` iff reminders are on and enough minutes have passed; otherwise it sends nothing and keeps `last_down_alert` |
| Transition.NoReminderWhenOff | monitor.py:116-118 | with the reminder interval at 0 or less, a down entry never sends a reminder |
| Transition.NoReminderWhenClockGoesBack | monitor.py:116 | a clock reading earlier than the last alert never makes a reminder due |
| Transition.EmptyEntryIsUnreachable | monitor.py:72-79 | the fresh entry has neither streak running while every stepped entry has exactly one, so no step leads back to it and it is the only reachable entry with neither streak running |
| Transition.StepHasNoFixpoint | monitor.py:99-108 | probing again with the same outcome always changes the entry |
| Streaks.Replay | monitor.py:94-121 | for a URL listed once per run: following one URL over several runs gives one alert per run, and after at least one run exactly one streak counter runs |
| Streaks.DebounceFromUp | monitor.py:106-114 | for a URL listed once per run: an up URL that keeps failing counts every failure. It goes down on exactly one run, the one where the streak reaches the threshold, and only that run sends a DOWN alert, with that run's message and time. Earlier runs are silent and no run sends a recovery |
| Streaks.ThresholdFromEmpty | monitor.py:106-114 | for a URL listed once per run: with threshold k, k consecutive failures of a new URL take it down and send exactly one DOWN alert, on the k-th failure, and nothing before |
| Streaks.OneAlertWhenRemindersOff | monitor.py:106-118 | for a URL listed once per run: with reminders off, an up URL that keeps failing sends the DOWN alert on the threshold run and nothing on any other run |
| Streaks.StaysDown | monitor.py:115-118 | for a URL listed once per run: a down URL that keeps failing stays down, keeps its `last_change` and sends nothing but reminders. Its `last_down_alert` ends as the time of the last alert sent, or unchanged when none was |
| Streaks.ReminderCadence | monitor.py:115-118 | for a URL listed once per run: a down URL that keeps failing sends a reminder on a run iff reminders are on and that many minutes have passed since the previous DOWN alert or reminder |
| StateStore.Load | monitor.py:56-65 | a missing or unreadable file, or one tagged with another schema version, yields the empty mapping. Entries come only from a snapshot with the expected tag |
| StateStore.Save | monitor.py:67-70 | the saved snapshot carries the current schema tag and exactly the new mapping |
| StateStore.SaveLoadRoundTrip | monitor.py:56-70 | loading what was saved under the same schema version gives back the saved entries |
| StateStore.SchemaChangeDiscardsState | monitor.py:60-62 | a snapshot saved under another schema version loads as the empty mapping |
| Monitor.Lookup | monitor.py:95 | a loaded URL starts from its loaded entry and any other URL from a fresh entry |
| Monitor.Visit | monitor.py:95-120 | one iteration decides exactly one alert and adds at most one text to the two batches together |
| Monitor.VisitFrame | monitor.py:95-120 | one iteration steps the URL's starting entry, saves the result under that URL and appends its alert. No other saved or loaded entry changes, no loaded key is added, and a loaded entry of the URL is updated in place |
| Monitor.Process | monitor.py:94-121 | the new mapping's keys are exactly the configured URLs, one alert is decided per URL, and every saved entry has exactly one streak running |
| Monitor.ProcessLoadedFrame | monitor.py:94-120 | the loop adds no key to the loaded mapping and leaves the loaded entries of unlisted URLs alone. The loaded entry of a listed URL ends as the very entry that is saved, because it is updated in place |
| Monitor.ProcessPrefix | monitor.py:94-120 | the alerts decided for the first k URLs do not depend on the URLs after them |
| Monitor.ProcessAt | monitor.py:94-120 | visit j steps the entry that `prev.get` returns after the first j visits, and its result is saved for that URL |
| Monitor.CurrUntouched | monitor.py:94-120 | visits of other URLs leave a URL's new entry alone |
| Monitor.FirstVisit | monitor.py:94-120 | the first visit of a URL steps its loaded entry, or a fresh one when it has none, whatever URLs came before it |
| Monitor.Notifications | monitor.py:123-126 | the DOWN/reminder batch is sent first and the recovery batch second, each with its own header, each only when non-empty |
| Monitor.AnyDown | monitor.py:130 | some entry of the new mapping is down iff not every entry is up |
| Monitor.Run | monitor.py:82-131 | no URLs means exit 2, nothing saved and nothing sent. Otherwise the saved snapshot has the current schema tag and exactly the configured URLs as keys. The exit code is 1 iff some configured URL is saved down, and 0 iff all are saved up. The notifications sent are exactly those `Notifications` builds from the two batches of the loop |
| Monitor.BatchesFollowUrlOrder | monitor.py:91-126 | the DOWN/reminder batch and the recovery batch are exactly the texts of the alerts of their category, in the order of the configured URLs |
| Monitor.DistinctUrlsAreIndependent | monitor.py:94-120 | with no URL listed twice, each URL's alert and saved entry are its own step from its loaded or fresh entry, independent of the other URLs |
| Monitor.DistinctBatches | monitor.py:94-126 | with no URL listed twice, the DOWN/reminder batch and the recovery batch are the texts of each URL's own step from its loaded or fresh entry, of their category, in URL order |
| Monitor.RepeatedUrl | monitor.py:94-120 | for a URL listed at positions i < j and not in between, visit j steps the result of visit i if the URL was loaded, and a fresh entry otherwise. The result of visit j is saved for the URL |
| Monitor.RepeatedUrlPair | monitor.py:94-120 | for the list `[u, u]`, the new mapping holds only the second result, and the two alerts are those of the first step and of the second step. The second starts from the first result if `u` was loaded, and from a fresh entry otherwise |
| Monitor.SchemaMismatchIsFirstRun | monitor.py:56-65 | a run from a snapshot with another schema tag behaves exactly like a run with no snapshot |
| Monitor.NextRunLoadsThisRun | monitor.py:128 | the next run under the same configuration starts from exactly the entries this run computed |
| Monitor.RerunChangesSavedEntries | monitor.py:99-128 | with no URL listed twice, two consecutive runs with the same outcomes never save the same entries, so persistence is not idempotent |
| Monitor.SavedEntryOfUrlListedOnce | monitor.py:94-128 | a URL listed exactly once is saved as one step from the entry the run loaded for it, or from a fresh entry, whatever the other URLs are |
| Monitor.AllOkAllUp | monitor.py:99-120 | when every probe of a run succeeds, every saved entry is up, whatever was loaded |
| Monitor.NoDownTextWhenAllOk | monitor.py:99-118 | when every probe of a run succeeds, the DOWN/reminder batch stays empty |
| Monitor.ProbeAll | monitor.py:96 | each URL's outcome is `check_url` of its response under the configured pattern: ok iff the request completed below 400 and the content matched when a pattern is set, with a message starting with the URL |
| Monitor.QuietRun | monitor.py:123-131 | a run that saves every URL up and raises no DOWN alert or reminder exits with 0 and sends at most one message, which then starts with the recovery header |
| Monitor.HealthyRunExitsZero | monitor.py:94-131 | a run in which every URL answers below 400 with the expected content exits with 0 and sends at most one message, which then starts with the recovery header |
| Monitor.RerunWithRepeatedUrlCanRepeat | monitor.py:94-128 | with threshold 2 and the list `[u, u]` whose first probe succeeds and second fails, the first run from no state and the run after it save the same entry: up, one failure, no success |

## Left out

- Any exception raised inside `check_url` arrives as a `Probe.TransportError` carrying its text. That includes a failed request, and also an `EXPECT` that is not a valid regular expression: `re.search` then raises for every response below 400, and the probe reports `<url> error: …`.
- `Monitor.Run` takes the probe outcomes of its URLs as a parameter, since probing is network I/O. `Monitor.ProbeAll` computes them from the responses with `check_url`'s classification, and `Monitor.HealthyRunExitsZero` is stated on that composition.
- The HTTP request in `check_url`: `requests.get`, its User-Agent and Accept headers, timeout and redirects, and the capture of exceptions. This is network I/O. The result arrives as a `Probe.Response`; a raised exception becomes `TransportError` carrying its text.
- The regular-expression search for `EXPECT`, case-insensitive and multiline. It is a foreign engine, so its result is the boolean `expectMatched`.
- `notify_callmebot`: the credential check, URL encoding, the HTTP call and logging of failed deliveries. This is outbound I/O. `Monitor.Run` gives the texts handed to it.
- Reading and writing the JSON state file, including a failed write, and the directory creation at import. This is filesystem I/O. A read is an optional `StateStore.Snapshot`.
- Environment-variable parsing, the defaults (timeout 10, threshold 1, reminder interval 10, schema "v2") and the `int(...)` conversion of the settings, which crashes on non-numeric values. Configuration is taken as already-parsed values.
- `time.time()`: the run's clock reading `now` and the save-time reading `savedAt` are parameters.
- Printing and logging.
- Malformed entries inside a snapshot with the right schema tag are not modelled, because an entry always has natural-number counters and a two-valued status. In the code, a missing `status` crashes on either branch (lines 102 and 109). A missing `ok` crashes only on a successful probe (line 100), because a failure assigns it (line 108). A missing `fail` crashes only on a failed probe (line 107), because a success assigns it (line 101). A missing `last_change` is harmless, since it is only ever written (lines 104 and 112). A missing `last_down_alert` reads as 0 (line 116). Non-integer or negative counters and status strings other than "up" and "down" are not modelled either.
- A snapshot with the right schema tag whose `urls` value is null or not an object is not modelled. `load_state` returns it as is (line 63) and the loop then crashes on `prev.get` (line 95). A `StateStore.Snapshot` whose `urls` is `None` stands for a missing key, which loads as the empty mapping.

=== FILE: monitor.dfy ===
/** One invocation of the monitor (`main`, monitor.py lines 82-131): every
    configured URL is stepped once, in order, from the loaded entries; the alerts
    are gathered into a DOWN/reminder batch and a recovery batch; the new entries
    are saved; the exit code reports whether anything is down. Probing, the clock
    and the state file are parameters. */
module Monitor {
  import opened Wrappers
  import opened Text
  import opened Settings
  import opened Probe
  import opened Transition
  import opened StateStore

  const NoUrlsExit: int := 2
  const SomeDownExit: int := 1
  const AllUpExit: int := 0

  const AlertHeader: string := "\U{26A0}\U{FE0F} Uptime alert:\n"
  const RecoveryHeader: string := "\U{2705} Recovery:\n"

  /** `prev.get(u, empty_entry())`. */
  function Lookup(m: map<string, Entry>, u: string): (e: Entry)
    ensures u in m ==> e == m[u]
    ensures u !in m ==> e == EmptyEntry()
  {
    if u in m then m[u] else EmptyEntry()
  }

  /** The state of the loop in `main` after some of the URLs. `prev` is the loaded
      mapping as the loop leaves it: the entry `prev.get` returns for a URL that
      was loaded is the very object the loop mutates, so a URL listed twice sees
      its first update on its second visit. `trace` holds the alert decided for
      each visited URL, in order; it is not part of the program's state. */
  datatype Batch = Batch(
    prev: map<string, Entry>,
    curr: map<string, Entry>,
    downAlerts: seq<string>,
    recoverAlerts: seq<string>,
    trace: seq<Alert>
  )

  /** The text an alert adds to the DOWN/reminder batch. */
  function DownText(a: Alert): seq<string> {
    if IsDownOrReminder(a) then [a.text] else []
  }

  /** The text an alert adds to the recovery batch. */
  function RecoveryText(a: Alert): seq<string> {
    if a.Recovery? then [a.text] else []
  }

  /** One iteration of the loop: URL `u`, whose probe gave `o`, is stepped from
      `prev.get(u, empty_entry())` and its alert appended to its batch. */
  function Visit(b: Batch, u: string, o: Outcome, now: int, cfg: Config): (b': Batch)
    ensures |b'.trace| == |b.trace| + 1
    ensures |b'.downAlerts| + |b'.recoverAlerts| <= |b.downAlerts| + |b.recoverAlerts| + 1
  {
    var s := Step(Lookup(b.prev, u), o, u, now, cfg);
    Batch(
      if u in b.prev then b.prev[u := s.entry] else b.prev,
      b.curr[u := s.entry],
      b.downAlerts + DownText(s.alert),
      b.recoverAlerts + RecoveryText(s.alert),
      b.trace + [s.alert])
  }

  /** Steps the URLs in order, `outcomes[i]` being the probe result of `urls[i]`. */
  function Process(urls: seq<string>, outcomes: seq<Outcome>, prev: map<string, Entry>, now: int, cfg: Config): (b: Batch)
    requires |outcomes| == |urls|
    ensures forall u :: u in b.curr <==> u in urls
    ensures |b.trace| == |urls|
    ensures forall u :: u in b.curr ==> OneStreak(b.curr[u])
    decreases |urls|
  {
    if |urls| == 0 then Batch(prev, map[], [], [], [])
    else
      var n := |urls| - 1;
      assert forall v :: v in urls <==> v in urls[..n] || v == urls[n];
      Visit(Process(urls[..n], outcomes[..n], prev, now, cfg), urls[n], outcomes[n], now, cfg)
  }

  /** The last visit comes after all the others. */
  lemma ProcessLast(urls: seq<string>, outcomes: seq<Outcome>, prev: map<string, Entry>, now: int, cfg: Config)
    requires |outcomes| == |urls| && |urls| > 0
    ensures var n := |urls| - 1;
            Process(urls, outcomes, prev, now, cfg) == Visit(Process(urls[..n], outcomes[..n], prev, now, cfg), urls[n], outcomes[n], now, cfg)
  {
  }

  /** The loop mutates loaded entries in place: it adds no key to the loaded
      mapping, leaves the entries of unlisted URLs alone, and the loaded entry of
      a listed URL ends up as the very entry that is saved. */
  lemma {:induction false} ProcessLoadedFrame(urls: seq<string>, outcomes: seq<Outcome>, prev: map<string, Entry>, now: int, cfg: Config)
    requires |outcomes| == |urls|
    ensures var b := Process(urls, outcomes, prev, now, cfg);
            && b.prev.Keys == prev.Keys
            && (forall u :: u in prev && u !in urls ==> b.prev[u] == prev[u])
            && (forall u :: u in prev && u in urls ==> b.prev[u] == b.curr[u])
    decreases |urls|
  {
    if |urls| > 0 {
      var n := |urls| - 1;
      ProcessLoadedFrame(urls[..n], outcomes[..n], prev, now, cfg);
      ProcessLast(urls, outcomes, prev, now, cfg);
      assert urls == urls[..n] + [urls[n]];
      VisitKeepsLoadedFrame(Process(urls[..n], outcomes[..n], prev, now, cfg), urls[..n], urls[n], outcomes[n], prev, now, cfg);
    }
  }

  /** One visit keeps the in-place relation between the loaded and the new mapping. */
  lemma VisitKeepsLoadedFrame(b: Batch, visited: seq<string>, u: string, o: Outcome, prev: map<string, Entry>, now: int, cfg: Config)
    requires forall v :: v in b.curr <==> v in visited
    requires b.prev.Keys == prev.Keys
    requires forall v :: v in prev && v !in visited ==> b.prev[v] == prev[v]
    requires forall v :: v in prev && v in visited ==> b.prev[v] == b.curr[v]
    ensures var b' := Visit(b, u, o, now, cfg);
            && b'.prev.Keys == prev.Keys
            && (forall v :: v in prev && v !in visited + [u] ==> b'.prev[v] == prev[v])
            && (forall v :: v in prev && v in visited + [u] ==> b'.prev[v] == b'.curr[v])
  {
    var b' := Visit(b, u, o, now, cfg);
    VisitFrame(b, u, o, now, cfg);
    forall v | v in prev && v !in visited + [u] ensures b'.prev[v] == prev[v] {
      assert v !in visited && v != u;
    }
    forall v | v in prev && v in visited + [u] ensures b'.prev[v] == b'.curr[v] {
      if v != u {
        assert v in visited;
      }
    }
  }

  /** Reference definition of a batch: the texts of the alerts of one category,
      in the order of the URLs that raised them. */
  function Collect(trace: seq<Alert>, recovery: bool): seq<string>
    decreases |trace|
  {
    if |trace| == 0 then []
    else
      var a := trace[|trace| - 1];
      Collect(trace[..|trace| - 1], recovery) + (if recovery then RecoveryText(a) else DownText(a))
  }

  /** The messages handed to the notifier: the DOWN/reminder batch first, then the
      recovery batch, each only when it is non-empty. */
  function Notifications(downAlerts: seq<string>, recoverAlerts: seq<string>): (ns: seq<string>)
    ensures |ns| == (if |downAlerts| > 0 then 1 else 0) + (if |recoverAlerts| > 0 then 1 else 0)
    ensures |downAlerts| > 0 ==> ns[0] == AlertHeader + Join("\n", downAlerts)
    ensures |recoverAlerts| > 0 ==> ns[|ns| - 1] == RecoveryHeader + Join("\n", recoverAlerts)
  {
    (if |downAlerts| > 0 then [AlertHeader + Join("\n", downAlerts)] else [])
    + (if |recoverAlerts| > 0 then [RecoveryHeader + Join("\n", recoverAlerts)] else [])
  }

  /** `any(e["status"] == "down" for e in curr.values())`. */
  function AnyDown(m: map<string, Entry>): (r: bool)
    ensures !r <==> forall u :: u in m ==> m[u].status == Up
  {
    exists u :: u in m && m[u].status == Down
  }

  /** What one invocation does: its exit code, the snapshot it writes (if any) and
      the notifications it sends. */
  datatype RunResult = RunResult(exitCode: int, saved: Option<Snapshot>, notifications: seq<string>)

  /** One invocation. `stored` is what reading the state file gave, `outcomes[i]`
      the probe result of `urls[i]`, `now` the run's clock reading and `savedAt`
      the clock reading when saving. */
  function Run(urls: seq<string>, outcomes: seq<Outcome>, stored: Option<Snapshot>, now: int, savedAt: int, cfg: Config): (r: RunResult)
    requires |outcomes| == |urls|
    ensures r.exitCode == NoUrlsExit <==> urls == []
    ensures urls == [] ==> r.saved == None && r.notifications == []
    ensures urls != [] ==>
              && r.saved.Some?
              && r.saved.value.schema == Some(cfg.schemaVersion)
              && r.saved.value.savedAt == savedAt
              && r.saved.value.urls.Some?
              && r.saved.value.urls.value.Keys == set u | u in urls
    ensures r.exitCode == SomeDownExit <==>
              r.saved.Some? && r.saved.value.urls.Some?
              && exists i :: 0 <= i < |urls| && urls[i] in r.saved.value.urls.value
                             && r.saved.value.urls.value[urls[i]].status == Down
    ensures r.exitCode == AllUpExit <==>
              r.saved.Some? && r.saved.value.urls.Some?
              && forall i :: 0 <= i < |urls| ==>
                   urls[i] in r.saved.value.urls.value && r.saved.value.urls.value[urls[i]].status == Up
    ensures |r.notifications| <= 2
    ensures urls != [] ==>
              var b := Process(urls, outcomes, Load(stored, cfg.schemaVersion), now, cfg);
              r.notifications == Notifications(b.downAlerts, b.recoverAlerts)
  {
    if |urls| == 0 then RunResult(NoUrlsExit, None, [])
    else
      var b := Process(urls, outcomes, Load(stored, cfg.schemaVersion), now, cfg);
      assert urls[0] in b.curr;
      RunResult(
        if AnyDown(b.curr) then SomeDownExit else AllUpExit,
        Some(Save(b.curr, cfg.schemaVersion, savedAt)),
        Notifications(b.downAlerts, b.recoverAlerts))
  }

  /** No URL is listed twice. */
  predicate Distinct(urls: seq<string>)
    decreases |urls|
  {
    |urls| == 0 || (urls[|urls| - 1] !in urls[..|urls| - 1] && Distinct(urls[..|urls| - 1]))
  }

  /** Both batches keep the order of the configured URLs: each is exactly the
      texts of its category of alerts, URL by URL. */
  lemma {:induction false} BatchesFollowUrlOrder(urls: seq<string>, outcomes: seq<Outcome>, prev: map<string, Entry>, now: int, cfg: Config)
    requires |outcomes| == |urls|
    ensures var b := Process(urls, outcomes, prev, now, cfg);
            && b.downAlerts == Collect(b.trace, false)
            && b.recoverAlerts == Collect(b.trace, true)
    decreases |urls|
  {
    if |urls| > 0 {
      var n := |urls| - 1;
      BatchesFollowUrlOrder(urls[..n], outcomes[..n], prev, now, cfg);
      var b := Process(urls, outcomes, prev, now, cfg);
      assert b.trace[..n] == Process(urls[..n], outcomes[..n], prev, now, cfg).trace;
    }
  }

  /** A visit steps the visited URL's starting entry, saves the result under that
      URL and appends its alert; no other saved or loaded entry changes, and the
      loaded entry of the visited URL, if it has one, is updated in place. */
  lemma VisitFrame(b: Batch, u: string, o: Outcome, now: int, cfg: Config)
    ensures var b' := Visit(b, u, o, now, cfg);
            var s := Step(Lookup(b.prev, u), o, u, now, cfg);
            && b'.trace == b.trace + [s.alert]
            && b'.curr == b.curr[u := s.entry]
            && b'.prev.Keys == b.prev.Keys
            && (forall v :: v in b.prev && v != u ==> b'.prev[v] == b.prev[v])
            && (u in b.prev ==> b'.prev[u] == s.entry)
  {
  }

  /** The last URL, when it is not listed before, is stepped from its own loaded
      (or fresh) entry. */
  lemma LastUrlIsOwnStep(urls: seq<string>, outcomes: seq<Outcome>, prev: map<string, Entry>, now: int, cfg: Config)
    requires |outcomes| == |urls| && |urls| > 0 && urls[|urls| - 1] !in urls[..|urls| - 1]
    ensures var n := |urls| - 1;
            var b := Process(urls, outcomes, prev, now, cfg);
            var s := Step(Lookup(prev, urls[n]), outcomes[n], urls[n], now, cfg);
            b.trace[n] == s.alert && b.curr[urls[n]] == s.entry
  {
    var n := |urls| - 1;
    var b0 := Process(urls[..n], outcomes[..n], prev, now, cfg);
    ProcessLoadedFrame(urls[..n], outcomes[..n], prev, now, cfg);
    assert Lookup(b0.prev, urls[n]) == Lookup(prev, urls[n]);
    VisitFrame(b0, urls[n], outcomes[n], now, cfg);
  }

  /** When no URL is listed twice, each URL is stepped from its own loaded entry
      (or a fresh one) and its alert and saved entry depend on nothing else. */
  lemma {:induction false} DistinctUrlsAreIndependent(urls: seq<string>, outcomes: seq<Outcome>, prev: map<string, Entry>, now: int, cfg: Config)
    requires |outcomes| == |urls| && Distinct(urls)
    ensures var b := Process(urls, outcomes, prev, now, cfg);
            forall i :: 0 <= i < |urls| ==>
              && b.trace[i] == Step(Lookup(prev, urls[i]), outcomes[i], urls[i], now, cfg).alert
              && b.curr[urls[i]] == Step(Lookup(prev, urls[i]), outcomes[i], urls[i], now, cfg).entry
    decreases |urls|
  {
    if |urls| > 0 {
      var n := |urls| - 1;
      var u := urls[n];
      var b0 := Process(urls[..n], outcomes[..n], prev, now, cfg);
      var b := Process(urls, outcomes, prev, now, cfg);
      DistinctUrlsAreIndependent(urls[..n], outcomes[..n], prev, now, cfg);
      LastUrlIsOwnStep(urls, outcomes, prev, now, cfg);
      VisitFrame(b0, u, outcomes[n], now, cfg);
      forall i | 0 <= i < n
        ensures b.trace[i] == Step(Lookup(prev, urls[i]), outcomes[i], urls[i], now, cfg).alert
        ensures b.curr[urls[i]] == Step(Lookup(prev, urls[i]), outcomes[i], urls[i], now, cfg).entry
      {
        assert urls[..n][i] == urls[i] && outcomes[..n][i] == outcomes[i];
        assert urls[i] != u;
        assert b.trace[i] == b0.trace[i];
        assert b.curr[urls[i]] == b0.curr[urls[i]];
      }
    }
  }

  /** Visiting a prefix of the URLs yields the same prefix of the alerts. */
  lemma {:induction false} ProcessPrefix(urls: seq<string>, outcomes: seq<Outcome>, prev: map<string, Entry>, now: int, cfg: Config, k: nat)
    requires |outcomes| == |urls| && k <= |urls|
    ensures Process(urls[..k], outcomes[..k], prev, now, cfg).trace == Process(urls, outcomes, prev, now, cfg).trace[..k]
    decreases |urls| - k
  {
    if k < |urls| {
      var t := Process(urls, outcomes, prev, now, cfg).trace;
      ProcessPrefix(urls, outcomes, prev, now, cfg, k + 1);
      TraceSnoc(urls, outcomes, prev, now, cfg, k);
      assert t[..k + 1][..k] == t[..k];
    } else {
      assert urls[..k] == urls && outcomes[..k] == outcomes;
    }
  }

  /** Visit `k` appends one alert to those of the visits before it. */
  lemma TraceSnoc(urls: seq<string>, outcomes: seq<Outcome>, prev: map<string, Entry>, now: int, cfg: Config, k: nat)
    requires |outcomes| == |urls| && k < |urls|
    ensures Process(urls[..k], outcomes[..k], prev, now, cfg).trace == Process(urls[..k + 1], outcomes[..k + 1], prev, now, cfg).trace[..k]
  {
    ProcessSnoc(urls, outcomes, prev, now, cfg, k);
    VisitFrame(Process(urls[..k], outcomes[..k], prev, now, cfg), urls[k], outcomes[k], now, cfg);
  }

  /** Visiting the first `j + 1` URLs is visiting the first `j`, then URL `j`. */
  lemma ProcessSnoc(urls: seq<string>, outcomes: seq<Outcome>, prev: map<string, Entry>, now: int, cfg: Config, j: nat)
    requires |outcomes| == |urls| && j < |urls|
    ensures Process(urls[..j + 1], outcomes[..j + 1], prev, now, cfg)
         == Visit(Process(urls[..j], outcomes[..j], prev, now, cfg), urls[j], outcomes[j], now, cfg)
  {
    assert urls[..j + 1][..j] == urls[..j] && outcomes[..j + 1][..j] == outcomes[..j];
  }

  /** Visit `j` steps the starting entry the first `j` visits left for its URL. */
  lemma ProcessAt(urls: seq<string>, outcomes: seq<Outcome>, prev: map<string, Entry>, now: int, cfg: Config, j: nat)
    requires |outcomes| == |urls| && j < |urls|
    ensures var before := Process(urls[..j], outcomes[..j], prev, now, cfg);
            var s := Step(Lookup(before.prev, urls[j]), outcomes[j], urls[j], now, cfg);
            && Process(urls, outcomes, prev, now, cfg).trace[j] == s.alert
            && Process(urls[..j + 1], outcomes[..j + 1], prev, now, cfg).curr[urls[j]] == s.entry
  {
    var before := Process(urls[..j], outcomes[..j], prev, now, cfg);
    var after := Process(urls[..j + 1], outcomes[..j + 1], prev, now, cfg);
    ProcessPrefix(urls, outcomes, prev, now, cfg, j + 1);
    ProcessSnoc(urls, outcomes, prev, now, cfg, j);
    VisitFrame(before, urls[j], outcomes[j], now, cfg);
    assert after.trace[j] == Process(urls, outcomes, prev, now, cfg).trace[j];
  }

  /** A visit of another URL leaves a URL's saved entry alone. */
  lemma CurrStep(urls: seq<string>, outcomes: seq<Outcome>, prev: map<string, Entry>, now: int, cfg: Config, u: string, k: nat)
    requires |outcomes| == |urls| && k < |urls| && urls[k] != u
    requires u in Process(urls[..k], outcomes[..k], prev, now, cfg).curr
    ensures var after := Process(urls[..k + 1], outcomes[..k + 1], prev, now, cfg);
            u in after.curr && after.curr[u] == Process(urls[..k], outcomes[..k], prev, now, cfg).curr[u]
  {
    ProcessSnoc(urls, outcomes, prev, now, cfg, k);
    VisitFrame(Process(urls[..k], outcomes[..k], prev, now, cfg), urls[k], outcomes[k], now, cfg);
  }

  /** Visits of other URLs leave a URL's saved entry alone. */
  lemma {:induction false} CurrUntouched(urls: seq<string>, outcomes: seq<Outcome>, prev: map<string, Entry>, now: int, cfg: Config, u: string, m: nat, k: nat)
    requires |outcomes| == |urls| && m <= k <= |urls|
    requires u in Process(urls[..m], outcomes[..m], prev, now, cfg).curr
    requires forall t :: m <= t < k ==> urls[t] != u
    ensures var bk := Process(urls[..k], outcomes[..k], prev, now, cfg);
            u in bk.curr && bk.curr[u] == Process(urls[..m], outcomes[..m], prev, now, cfg).curr[u]
    decreases k
  {
    if k > m {
      CurrUntouched(urls, outcomes, prev, now, cfg, u, m, k - 1);
      CurrStep(urls, outcomes, prev, now, cfg, u, k - 1);
    }
  }

  /** The first visit of a URL steps its loaded entry, or a fresh one when it has
      none, whatever came before it in the list. */
  lemma FirstVisit(urls: seq<string>, outcomes: seq<Outcome>, prev: map<string, Entry>, now: int, cfg: Config, j: nat)
    requires |outcomes| == |urls| && j < |urls| && urls[j] !in urls[..j]
    ensures var s := Step(Lookup(prev, urls[j]), outcomes[j], urls[j], now, cfg);
            && Process(urls, outcomes, prev, now, cfg).trace[j] == s.alert
            && Process(urls[..j + 1], outcomes[..j + 1], prev, now, cfg).curr[urls[j]] == s.entry
  {
    ProcessAt(urls, outcomes, prev, now, cfg, j);
    ProcessLoadedFrame(urls[..j], outcomes[..j], prev, now, cfg);
  }

  /** A URL listed more than once is stepped on every visit. A later visit starts
      from the result of the URL's previous visit `i` when the URL was loaded (the
      loop mutates the loaded entry in place), but from a fresh entry when it was
      not. */
  lemma RepeatedUrl(urls: seq<string>, outcomes: seq<Outcome>, prev: map<string, Entry>, now: int, cfg: Config, i: nat, j: nat)
    requires |outcomes| == |urls| && i < j < |urls| && urls[i] == urls[j]
    requires forall t :: i < t < j ==> urls[t] != urls[j]
    ensures var u := urls[j];
            var b := Process(urls[..i + 1], outcomes[..i + 1], prev, now, cfg);
            u in b.curr
            && var s := Step(if u in prev then b.curr[u] else EmptyEntry(), outcomes[j], u, now, cfg);
               && Process(urls, outcomes, prev, now, cfg).trace[j] == s.alert
               && Process(urls[..j + 1], outcomes[..j + 1], prev, now, cfg).curr[u] == s.entry
  {
    var u := urls[j];
    var b := Process(urls[..i + 1], outcomes[..i + 1], prev, now, cfg);
    var before := Process(urls[..j], outcomes[..j], prev, now, cfg);
    assert u in b.curr && Lookup(before.prev, u) == if u in prev then b.curr[u] else EmptyEntry() by {
      assert urls[..i + 1][i] == u && urls[..j][i] == u;
      ProcessLoadedFrame(urls[..j], outcomes[..j], prev, now, cfg);
      CurrUntouched(urls, outcomes, prev, now, cfg, u, i + 1, j);
    }
    ProcessAt(urls, outcomes, prev, now, cfg, j);
  }

  /** The simplest repetition: the list `[u, u]`. */
  lemma RepeatedUrlPair(u: string, o1: Outcome, o2: Outcome, prev: map<string, Entry>, now: int, cfg: Config)
    ensures var b := Process([u, u], [o1, o2], prev, now, cfg);
            var first := Step(Lookup(prev, u), o1, u, now, cfg);
            var second := Step(if u in prev then first.entry else EmptyEntry(), o2, u, now, cfg);
            b.curr == map[u := second.entry] && b.trace == [first.alert, second.alert]
  {
    var first := Step(Lookup(prev, u), o1, u, now, cfg);
    var b0 := Process([], [], prev, now, cfg);
    assert b0 == Batch(prev, map[], [], [], []);
    var b1 := Process([u], [o1], prev, now, cfg);
    assert [u][..0] == [] && [o1][..0] == [];
    assert b1.curr == map[u := first.entry] && b1.trace == [first.alert];
    assert Lookup(b1.prev, u) == if u in prev then first.entry else EmptyEntry();
    assert [u, u][..1] == [u] && [o1, o2][..1] == [o1];
  }

  /** Each URL's own alert, as if it were the only URL configured. */
  function OwnAlerts(urls: seq<string>, outcomes: seq<Outcome>, prev: map<string, Entry>, now: int, cfg: Config): (r: seq<Alert>)
    requires |outcomes| == |urls|
    ensures |r| == |urls|
    ensures forall i :: 0 <= i < |urls| ==> r[i] == Step(Lookup(prev, urls[i]), outcomes[i], urls[i], now, cfg).alert
  {
    seq(|urls|, i requires 0 <= i < |urls| => Step(Lookup(prev, urls[i]), outcomes[i], urls[i], now, cfg).alert)
  }

  /** With no URL listed twice, the DOWN/reminder batch and the recovery batch are
      the texts of each URL's own alert, of their category, in URL order. */
  lemma DistinctBatches(urls: seq<string>, outcomes: seq<Outcome>, prev: map<string, Entry>, now: int, cfg: Config)
    requires |outcomes| == |urls| && Distinct(urls)
    ensures var b := Process(urls, outcomes, prev, now, cfg);
            && b.downAlerts == Collect(OwnAlerts(urls, outcomes, prev, now, cfg), false)
            && b.recoverAlerts == Collect(OwnAlerts(urls, outcomes, prev, now, cfg), true)
  {
    var b := Process(urls, outcomes, prev, now, cfg);
    DistinctUrlsAreIndependent(urls, outcomes, prev, now, cfg);
    BatchesFollowUrlOrder(urls, outcomes, prev, now, cfg);
    assert b.trace == OwnAlerts(urls, outcomes, prev, now, cfg);
  }

  /** A snapshot under another schema version is as good as no snapshot: the run
      behaves exactly as a first run. */
  lemma SchemaMismatchIsFirstRun(urls: seq<string>, outcomes: seq<Outcome>, stored: Snapshot, now: int, savedAt: int, cfg: Config)
    requires |outcomes| == |urls| && stored.schema != Some(cfg.schemaVersion)
    ensures Run(urls, outcomes, Some(stored), now, savedAt, cfg) == Run(urls, outcomes, None, now, savedAt, cfg)
  {
  }

  /** The next run under the same configuration loads exactly the entries this run
      computed. */
  lemma NextRunLoadsThisRun(urls: seq<string>, outcomes: seq<Outcome>, stored: Option<Snapshot>, now: int, savedAt: int, cfg: Config)
    requires |outcomes| == |urls| && urls != []
    ensures var r := Run(urls, outcomes, stored, now, savedAt, cfg);
            Load(r.saved, cfg.schemaVersion) == Process(urls, outcomes, Load(stored, cfg.schemaVersion), now, cfg).curr
  {
    var b := Process(urls, outcomes, Load(stored, cfg.schemaVersion), now, cfg);
    SaveLoadRoundTrip(b.curr, cfg.schemaVersion, savedAt);
  }

  /** Two consecutive runs with the same probe outcomes never save the same
      entries: every URL's streak counter advances again. */
  lemma RerunChangesSavedEntries(urls: seq<string>, outcomes: seq<Outcome>, stored: Option<Snapshot>, now1: int, now2: int, t1: int, t2: int, cfg: Config)
    requires |outcomes| == |urls| && urls != [] && Distinct(urls)
    ensures var r1 := Run(urls, outcomes, stored, now1, t1, cfg);
            var r2 := Run(urls, outcomes, r1.saved, now2, t2, cfg);
            r1.saved.Some? && r2.saved.Some? && r2.saved.value.urls != r1.saved.value.urls
  {
    var b1 := Process(urls, outcomes, Load(stored, cfg.schemaVersion), now1, cfg);
    var r1 := Run(urls, outcomes, stored, now1, t1, cfg);
    NextRunLoadsThisRun(urls, outcomes, stored, now1, t1, cfg);
    var b2 := Process(urls, outcomes, b1.curr, now2, cfg);
    DistinctUrlsAreIndependent(urls, outcomes, b1.curr, now2, cfg);
    var u := urls[0];
    assert u in b1.curr;
    StepHasNoFixpoint(b1.curr[u], outcomes[0], u, now2, cfg);
    var e := b1.curr[u];
    assert b2.curr[u] == Step(e, outcomes[0], u, now2, cfg).entry;
    assert b2.curr[u] != b1.curr[u] by {
      if outcomes[0].ok {
        assert b2.curr[u].ok == e.ok + 1;
      } else {
        assert b2.curr[u].fail == e.fail + 1;
      }
    }
  }

  /** Without distinct URLs a rerun can save the same entries again: a URL listed
      twice whose probe succeeds on its first visit and fails on its second is saved
      as a first failure on every run when two failures are needed to go down. */
  lemma RerunWithRepeatedUrlCanRepeat(u: string, okMsg: string, failMsg: string, now1: int, now2: int, t1: int, t2: int, cfg: Config)
    requires cfg.threshold == 2
    ensures var urls := [u, u];
            var outcomes := [Outcome(true, okMsg), Outcome(false, failMsg)];
            var r1 := Run(urls, outcomes, None, now1, t1, cfg);
            var r2 := Run(urls, outcomes, r1.saved, now2, t2, cfg);
            && r1.saved.Some? && r2.saved.Some?
            && r2.saved.value.urls == r1.saved.value.urls == Some(map[u := Entry(Up, 1, 0, 0, 0)])
  {
    var urls := [u, u];
    var outcomes := [Outcome(true, okMsg), Outcome(false, failMsg)];
    var b1 := Process(urls, outcomes, map[], now1, cfg);
    RepeatedUrlPair(u, outcomes[0], outcomes[1], map[], now1, cfg);
    assert b1.curr == map[u := Entry(Up, 1, 0, 0, 0)];
    NextRunLoadsThisRun(urls, outcomes, None, now1, t1, cfg);
    RepeatedUrlPair(u, outcomes[0], outcomes[1], b1.curr, now2, cfg);
    assert Process(urls, outcomes, b1.curr, now2, cfg).curr == map[u := Entry(Up, 1, 0, 0, 0)];
  }

  /** A URL listed exactly once in a run is saved as one step from the entry the
      run loaded for it (or a fresh one), whatever the other URLs are. So the
      `Streaks` lemmas, which follow one entry from run to run, describe such a
      URL across consecutive runs. */
  lemma SavedEntryOfUrlListedOnce(urls: seq<string>, outcomes: seq<Outcome>, stored: Option<Snapshot>, now: int, savedAt: int, cfg: Config, j: nat)
    requires |outcomes| == |urls| && j < |urls|
    requires urls[j] !in urls[..j] && urls[j] !in urls[j + 1..]
    ensures var r := Run(urls, outcomes, stored, now, savedAt, cfg);
            var s := Step(Lookup(Load(stored, cfg.schemaVersion), urls[j]), outcomes[j], urls[j], now, cfg);
            && r.saved.Some? && r.saved.value.urls.Some?
            && urls[j] in r.saved.value.urls.value
            && r.saved.value.urls.value[urls[j]] == s.entry
  {
    var u := urls[j];
    var prev := Load(stored, cfg.schemaVersion);
    FirstVisit(urls, outcomes, prev, now, cfg, j);
    forall t | j + 1 <= t < |urls| ensures urls[t] != u {
      assert urls[t] == urls[j + 1..][t - j - 1];
    }
    CurrUntouched(urls, outcomes, prev, now, cfg, u, j + 1, |urls|);
    assert urls[..|urls|] == urls && outcomes[..|urls|] == outcomes;
  }

  /** Every saved entry is up when every probe of the run succeeded, whatever the
      loaded entries were: recovery is immediate. */
  lemma {:induction false} AllOkAllUp(urls: seq<string>, outcomes: seq<Outcome>, prev: map<string, Entry>, now: int, cfg: Config)
    requires |outcomes| == |urls|
    requires forall i :: 0 <= i < |outcomes| ==> outcomes[i].ok
    ensures var b := Process(urls, outcomes, prev, now, cfg);
            forall u :: u in b.curr ==> b.curr[u].status == Up
    decreases |urls|
  {
    if |urls| > 0 {
      var n := |urls| - 1;
      var b0 := Process(urls[..n], outcomes[..n], prev, now, cfg);
      assert forall i :: 0 <= i < n ==> outcomes[..n][i] == outcomes[i];
      AllOkAllUp(urls[..n], outcomes[..n], prev, now, cfg);
      ProcessLast(urls, outcomes, prev, now, cfg);
      VisitFrame(b0, urls[n], outcomes[n], now, cfg);
    }
  }

  /** A run whose every probe succeeded raises no DOWN alert and no reminder. */
  lemma {:induction false} NoDownTextWhenAllOk(urls: seq<string>, outcomes: seq<Outcome>, prev: map<string, Entry>, now: int, cfg: Config)
    requires |outcomes| == |urls|
    requires forall i :: 0 <= i < |outcomes| ==> outcomes[i].ok
    ensures Process(urls, outcomes, prev, now, cfg).downAlerts == []
    decreases |urls|
  {
    if |urls| > 0 {
      var n := |urls| - 1;
      var b0 := Process(urls[..n], outcomes[..n], prev, now, cfg);
      assert forall i :: 0 <= i < n ==> outcomes[..n][i] == outcomes[i];
      NoDownTextWhenAllOk(urls[..n], outcomes[..n], prev, now, cfg);
      ProcessLast(urls, outcomes, prev, now, cfg);
      AlertsFollowTransitions(Lookup(b0.prev, urls[n]), outcomes[n], urls[n], now, cfg);
    }
  }

  /** The probe outcomes of a run, `check_url` applied to each URL's response with
      the configured content pattern. */
  function ProbeAll(urls: seq<string>, responses: seq<Response>, cfg: Config): (os: seq<Outcome>)
    requires |responses| == |urls|
    ensures |os| == |urls|
    ensures forall i :: 0 <= i < |urls| ==>
              && urls[i] <= os[i].msg
              && (os[i].ok <==> responses[i].Response? && responses[i].statusCode < 400
                                && (cfg.pattern == "" || responses[i].expectMatched))
    ensures forall i :: 0 <= i < |urls| ==> os[i] == CheckUrl(urls[i], cfg.pattern, responses[i])
  {
    seq(|urls|, i requires 0 <= i < |urls| => CheckUrl(urls[i], cfg.pattern, responses[i]))
  }

  /** A run that saves every URL up and raises no DOWN alert or reminder exits
      with 0 and sends at most the recovery message. */
  lemma QuietRun(urls: seq<string>, outcomes: seq<Outcome>, stored: Option<Snapshot>, now: int, savedAt: int, cfg: Config)
    requires |outcomes| == |urls| && urls != []
    requires var b := Process(urls, outcomes, Load(stored, cfg.schemaVersion), now, cfg);
             b.downAlerts == [] && forall u :: u in b.curr ==> b.curr[u].status == Up
    ensures var r := Run(urls, outcomes, stored, now, savedAt, cfg);
            && r.exitCode == AllUpExit
            && |r.notifications| <= 1
            && forall i :: 0 <= i < |r.notifications| ==> RecoveryHeader <= r.notifications[i]
  {
    var b := Process(urls, outcomes, Load(stored, cfg.schemaVersion), now, cfg);
    assert !AnyDown(b.curr);
  }

  /** A run in which every URL answers below 400 with the expected content exits
      with 0 and sends no DOWN alert or reminder. */
  lemma HealthyRunExitsZero(urls: seq<string>, responses: seq<Response>, stored: Option<Snapshot>, now: int, savedAt: int, cfg: Config)
    requires |responses| == |urls| && urls != []
    requires forall i :: 0 <= i < |responses| ==>
               responses[i].Response? && responses[i].statusCode < 400 && responses[i].expectMatched
    ensures var r := Run(urls, ProbeAll(urls, responses, cfg), stored, now, savedAt, cfg);
            && r.exitCode == AllUpExit
            && |r.notifications| <= 1
            && forall i :: 0 <= i < |r.notifications| ==> RecoveryHeader <= r.notifications[i]
  {
    var outcomes := ProbeAll(urls, responses, cfg);
    var prev := Load(stored, cfg.schemaVersion);
    AllOkAllUp(urls, outcomes, prev, now, cfg);
    NoDownTextWhenAllOk(urls, outcomes, prev, now, cfg);
    QuietRun(urls, outcomes, stored, now, savedAt, cfg);
  }
}

=== FILE: probe.dfy ===
/** Classification of one HTTP probe (`check_url`). The HTTP request itself is
    not modelled: its result arrives as a `Response`, with the regular-expression
    search for the expected content reduced to a boolean. */
module Probe {
  import opened Text

  datatype Response =
    | Response(statusCode: int, expectMatched: bool)   // the request completed
    | TransportError(detail: string)                   // check_url raised (the request, or an invalid pattern); detail is str(e)

  /** What `check_url` returns: the verdict and a message naming the URL. */
  datatype Outcome = Outcome(ok: bool, msg: string)

  const ReturnedInfix: string := " returned "
  const MissingContentSuffix: string := " missing expected content"
  const ErrorInfix: string := " error: "

  function CheckUrl(url: string, pattern: string, resp: Response): (o: Outcome)
    ensures o.ok <==> resp.Response? && resp.statusCode < 400 && (pattern == "" || resp.expectMatched)
    ensures url <= o.msg
    ensures resp.TransportError? ==> o.msg == url + ErrorInfix + resp.detail
    ensures resp.Response? && resp.statusCode >= 400 ==> o.msg == url + ReturnedInfix + Decimal(resp.statusCode)
    ensures resp.Response? && resp.statusCode < 400 && pattern != "" && !resp.expectMatched ==>
              o.msg == url + MissingContentSuffix
  {
    match resp
    case TransportError(detail) => Outcome(false, url + ErrorInfix + detail)
    case Response(code, matched) =>
      if code >= 400 then Outcome(false, url + ReturnedInfix + Decimal(code))
      else if pattern != "" && !matched then Outcome(false, url + MissingContentSuffix)
      else Outcome(true, url + " OK (" + Decimal(code) + ")")
  }

  /** An error-status message carries the status code, which can be read back from
      it; the status check comes before the content check, so a 4xx or 5xx is
      reported as such whatever the body holds. */
  lemma ErrorStatusIsRecoverable(url: string, pattern: string, code: int, matched: bool)
    requires code >= 400
    ensures var o := CheckUrl(url, pattern, Response(code, matched));
            && !o.ok
            && |url + ReturnedInfix| < |o.msg|
            && ParseDecimal(o.msg[|url + ReturnedInfix|..]) == code
  {
    var o := CheckUrl(url, pattern, Response(code, matched));
    assert o.msg[|url + ReturnedInfix|..] == Decimal(code);
    DecimalRoundTrip(code);
  }
}

=== FILE: settings.dfy ===
/** The monitor's behaviour knobs, taken as already-parsed values
    (monitor.py lines 5-18 read them from the environment). */
module Settings {

  /** A failure threshold as the monitor uses it: never below one. */
  type Threshold = t: int | t >= 1 witness 1

  /** `max(1, FAILURE_THRESHOLD)`: a threshold below one would mean "down before
      any failure", so the first failure always counts. */
  function ClampThreshold(raw: int): (t: Threshold)
    ensures raw <= t
    ensures t == raw || t == 1
    ensures raw >= 1 <==> t == raw
  {
    if raw < 1 then 1 else raw
  }

  datatype Config = Config(
    threshold: Threshold,     // FAILURE_THRESHOLD, after the clamp
    remindMin: int,           // REMIND_MIN: minutes between reminders, 0 (or less) = off
    pattern: string,          // EXPECT, already stripped; "" = no content check
    schemaVersion: string     // STATE_SCHEMA_VERSION
  )

  /** The configuration the monitor builds from raw settings. */
  function MakeConfig(rawThreshold: int, remindMin: int, pattern: string, schemaVersion: string): (c: Config)
    ensures c.threshold >= 1
    ensures c.threshold >= rawThreshold
    ensures rawThreshold >= 1 ==> c.threshold == rawThreshold
    ensures rawThreshold < 1 ==> c.threshold == 1
    ensures c.remindMin == remindMin && c.pattern == pattern && c.schemaVersion == schemaVersion
  {
    Config(ClampThreshold(rawThreshold), remindMin, pattern, schemaVersion)
  }
}

=== FILE: state_store.dfy ===
/** The persisted snapshot (`load_state` / `save_state`). Reading and writing the
    JSON file is not modelled: a read arrives as an optional snapshot, `None`
    standing for a file that is absent, unreadable or not a JSON object. */
module StateStore {
  import opened Wrappers
  import opened Transition

  /** The JSON object `{"_schema": ..., "saved_at": ..., "urls": {...}}`; the
      fields a hand-edited or older file may lack are optional. */
  datatype Snapshot = Snapshot(schema: Option<string>, savedAt: int, urls: Option<map<string, Entry>>)

  /** The entries a run starts from. Any snapshot not tagged with the expected
      schema version is ignored as a whole. */
  function Load(file: Option<Snapshot>, version: string): (m: map<string, Entry>)
    ensures file.None? ==> m == map[]
    ensures file.Some? && file.value.schema != Some(version) ==> m == map[]
    ensures m != map[] ==> file.Some? && file.value.schema == Some(version) && file.value.urls == Some(m)
  {
    match file
    case None => map[]
    case Some(s) => if s.schema != Some(version) then map[] else s.urls.GetOr(map[])
  }

  /** The snapshot a run writes: always the current schema tag. */
  function Save(m: map<string, Entry>, version: string, savedAt: int): (s: Snapshot)
    ensures s.schema == Some(version) && s.urls == Some(m)
  {
    Snapshot(Some(version), savedAt, Some(m))
  }

  /** What one run saves, the next run under the same schema version loads back
      unchanged, whenever it was saved. */
  lemma SaveLoadRoundTrip(m: map<string, Entry>, version: string, savedAt: int)
    ensures Load(Some(Save(m, version, savedAt)), version) == m
  {
  }

  /** Changing the schema version discards everything saved under the old one. */
  lemma SchemaChangeDiscardsState(m: map<string, Entry>, saved: string, expected: string, savedAt: int)
    requires saved != expected
    ensures Load(Some(Save(m, saved, savedAt)), expected) == map[]
  {
  }
}

=== FILE: streaks.dfy ===
/** One URL followed over successive runs: the monitor is invoked on a schedule,
    and each run moves the saved entry of a URL listed once per run one step
    (monitor.py lines 94-121), provided the configuration and the schema version
    stay the same. The lemmas here are about streaks of consecutive probes. */
module Streaks {
  import opened Settings
  import opened Probe
  import opened Transition

  /** The probe outcome of one run and the time that run started. */
  datatype Tick = Tick(probe: Outcome, now: int)

  datatype Replayed = Replayed(entry: Entry, alerts: seq<Alert>)

  /** The entry after the given runs, and the alert each run produced. */
  function Replay(e: Entry, ticks: seq<Tick>, url: string, cfg: Config): (r: Replayed)
    ensures |r.alerts| == |ticks|
    ensures |ticks| > 0 ==> OneStreak(r.entry)
    decreases |ticks|
  {
    if |ticks| == 0 then Replayed(e, [])
    else
      var before := Replay(e, ticks[..|ticks| - 1], url, cfg);
      var last := ticks[|ticks| - 1];
      var s := Step(before.entry, last.probe, url, last.now, cfg);
      Replayed(s.entry, before.alerts + [s.alert])
  }

  predicate AllFail(ticks: seq<Tick>) {
    forall i :: 0 <= i < |ticks| ==> !ticks[i].probe.ok
  }

  /** The time of the last DOWN alert or reminder among `alerts`, or `start` when
      there is none. */
  function LastAlertTime(start: int, ticks: seq<Tick>, alerts: seq<Alert>): int
    requires |alerts| == |ticks|
    decreases |ticks|
  {
    if |ticks| == 0 then start
    else if IsDownOrReminder(alerts[|alerts| - 1]) then ticks[|ticks| - 1].now
    else LastAlertTime(start, ticks[..|ticks| - 1], alerts[..|alerts| - 1])
  }

  /** Index of the failed run that takes an up URL with `fail` failures behind it
      down. */
  function FirstDownIndex(fail: nat, k: Threshold): (i: nat)
    ensures fail + i + 1 >= k
    ensures i > 0 ==> fail + i + 1 == k
  {
    if fail + 1 >= k then 0 else k - fail - 1
  }

  /** Debounce: an up URL with `fail` failures behind it that keeps failing goes
      down on exactly one run, the one that brings the streak to the threshold,
      and that run alone sends a DOWN alert; the runs before it are silent. */
  lemma {:induction false} DebounceFromUp(e: Entry, ticks: seq<Tick>, url: string, cfg: Config)
    requires e.status == Up && AllFail(ticks)
    ensures var r := Replay(e, ticks, url, cfg);
            var k := FirstDownIndex(e.fail, cfg.threshold);
            && r.entry.fail == e.fail + |ticks|
            && (r.entry.status == Down <==> k < |ticks|)
            && (forall i :: 0 <= i < |ticks| ==> (r.alerts[i].DownAlert? <==> i == k))
            && (forall i :: 0 <= i < |ticks| && i < k ==> r.alerts[i].Quiet?)
            && (forall i :: 0 <= i < |ticks| ==> !r.alerts[i].Recovery?)
            && (k < |ticks| ==> r.alerts[k] == DownAlert(ticks[k].probe.msg) && r.entry.lastChange == ticks[k].now)
            && (k >= |ticks| ==> r.entry.lastChange == e.lastChange && r.entry.lastDownAlert == e.lastDownAlert)
    decreases |ticks|
  {
    if |ticks| > 0 {
      var n := |ticks| - 1;
      var prefix := ticks[..n];
      assert AllFail(prefix) by {
        forall i | 0 <= i < |prefix| ensures !prefix[i].probe.ok {
          assert prefix[i] == ticks[i];
        }
      }
      DebounceFromUp(e, prefix, url, cfg);
      var before := Replay(e, prefix, url, cfg);
      var r := Replay(e, ticks, url, cfg);
      assert r.alerts[..n] == before.alerts;
      assert !ticks[n].probe.ok;
      forall i | 0 <= i < n ensures r.alerts[i] == before.alerts[i] {
        assert r.alerts[..n][i] == r.alerts[i];
      }
    }
  }

  /** With threshold k, k consecutive failures of a new URL produce exactly one
      DOWN alert, on the k-th failure, and nothing before it. */
  lemma ThresholdFromEmpty(ticks: seq<Tick>, url: string, cfg: Config)
    requires AllFail(ticks) && |ticks| == cfg.threshold
    ensures var r := Replay(EmptyEntry(), ticks, url, cfg);
            && r.entry.status == Down
            && r.alerts[|ticks| - 1] == DownAlert(ticks[|ticks| - 1].probe.msg)
            && (forall i :: 0 <= i < |ticks| - 1 ==> r.alerts[i].Quiet?)
  {
    DebounceFromUp(EmptyEntry(), ticks, url, cfg);
  }

  /** With reminders off, an up URL that keeps failing sends exactly one alert in
      total: the DOWN alert on the run that reaches the threshold. */
  lemma {:induction false} OneAlertWhenRemindersOff(e: Entry, ticks: seq<Tick>, url: string, cfg: Config)
    requires e.status == Up && AllFail(ticks) && cfg.remindMin <= 0
    ensures var r := Replay(e, ticks, url, cfg);
            var k := FirstDownIndex(e.fail, cfg.threshold);
            forall i :: 0 <= i < |ticks| ==>
              r.alerts[i] == if i == k then DownAlert(ticks[i].probe.msg) else Quiet
    decreases |ticks|
  {
    if |ticks| > 0 {
      var n := |ticks| - 1;
      var prefix := ticks[..n];
      assert AllFail(prefix) by {
        forall i | 0 <= i < |prefix| ensures !prefix[i].probe.ok {
          assert prefix[i] == ticks[i];
        }
      }
      OneAlertWhenRemindersOff(e, prefix, url, cfg);
      DebounceFromUp(e, prefix, url, cfg);
      DebounceFromUp(e, ticks, url, cfg);
      var before := Replay(e, prefix, url, cfg);
      var r := Replay(e, ticks, url, cfg);
      var k := FirstDownIndex(e.fail, cfg.threshold);
      assert r.alerts[..n] == before.alerts;
      forall i | 0 <= i < |ticks|
        ensures r.alerts[i] == if i == k then DownAlert(ticks[i].probe.msg) else Quiet
      {
        if i < n {
          assert r.alerts[..n][i] == r.alerts[i];
        } else if i != k {
          if before.entry.status == Down {
            NoReminderWhenOff(before.entry, ticks[n].probe, url, ticks[n].now, cfg);
          }
        }
      }
    }
  }

  /** Replaying a prefix of the runs yields the same prefix of the alerts. */
  lemma {:induction false} ReplayPrefix(e: Entry, ticks: seq<Tick>, url: string, cfg: Config, i: nat)
    requires i <= |ticks|
    ensures Replay(e, ticks[..i], url, cfg).alerts == Replay(e, ticks, url, cfg).alerts[..i]
    decreases |ticks|
  {
    if i < |ticks| {
      var n := |ticks| - 1;
      assert ticks[..n][..i] == ticks[..i];
      ReplayPrefix(e, ticks[..n], url, cfg, i);
    } else {
      assert ticks[..i] == ticks;
    }
  }

  /** Run `i` steps the entry the first `i` runs left behind. */
  lemma ReplayAt(e: Entry, ticks: seq<Tick>, url: string, cfg: Config, i: nat)
    requires i < |ticks|
    ensures var before := Replay(e, ticks[..i], url, cfg);
            Replay(e, ticks, url, cfg).alerts[i] == Step(before.entry, ticks[i].probe, url, ticks[i].now, cfg).alert
  {
    ReplayPrefix(e, ticks, url, cfg, i + 1);
    assert ticks[..i + 1][..i] == ticks[..i];
  }

  /** A down URL that keeps failing stays down, keeps its last status change, and
      sends nothing but reminders; its `last_down_alert` ends as the time of the
      last alert sent. */
  lemma {:induction false} StaysDown(e: Entry, ticks: seq<Tick>, url: string, cfg: Config)
    requires e.status == Down && AllFail(ticks)
    ensures var r := Replay(e, ticks, url, cfg);
            && r.entry.status == Down
            && r.entry.lastChange == e.lastChange
            && r.entry.lastDownAlert == LastAlertTime(e.lastDownAlert, ticks, r.alerts)
            && (forall i :: 0 <= i < |ticks| ==> r.alerts[i].Quiet? || r.alerts[i].Reminder?)
    decreases |ticks|
  {
    if |ticks| > 0 {
      var n := |ticks| - 1;
      var prefix := ticks[..n];
      assert AllFail(prefix) by {
        forall i | 0 <= i < |prefix| ensures !prefix[i].probe.ok {
          assert prefix[i] == ticks[i];
        }
      }
      StaysDown(e, prefix, url, cfg);
      var before := Replay(e, prefix, url, cfg);
      var r := Replay(e, ticks, url, cfg);
      assert r.alerts[..n] == before.alerts;
      FailureWhileDown(before.entry, ticks[n].probe, url, ticks[n].now, cfg);
      forall i | 0 <= i < n ensures r.alerts[i] == before.alerts[i] {
        assert r.alerts[..n][i] == r.alerts[i];
      }
    }
  }

  /** Reminder cadence: a down URL that keeps failing sends a reminder on a run
      exactly when reminders are on and at least that many minutes have passed
      since the previous DOWN alert or reminder. */
  lemma ReminderCadence(e: Entry, ticks: seq<Tick>, url: string, cfg: Config)
    requires e.status == Down && AllFail(ticks)
    ensures var r := Replay(e, ticks, url, cfg);
            forall i :: 0 <= i < |ticks| ==>
              (r.alerts[i].Reminder? <==>
                cfg.remindMin > 0
                && ticks[i].now - LastAlertTime(e.lastDownAlert, ticks[..i], r.alerts[..i]) >= cfg.remindMin * 60)
  {
    var r := Replay(e, ticks, url, cfg);
    forall i | 0 <= i < |ticks|
      ensures r.alerts[i].Reminder? <==>
                cfg.remindMin > 0
                && ticks[i].now - LastAlertTime(e.lastDownAlert, ticks[..i], r.alerts[..i]) >= cfg.remindMin * 60
    {
      var before := Replay(e, ticks[..i], url, cfg);
      assert AllFail(ticks[..i]) by {
        forall j | 0 <= j < i ensures !ticks[..i][j].probe.ok {
          assert ticks[..i][j] == ticks[j];
        }
      }
      StaysDown(e, ticks[..i], url, cfg);
      ReplayPrefix(e, ticks, url, cfg, i);
      ReplayAt(e, ticks, url, cfg, i);
      FailureWhileDown(before.entry, ticks[i].probe, url, ticks[i].now, cfg);
    }
  }
}

=== FILE: text.dfy ===
/** String helpers the monitor's messages are built with: Python's `str()` of an
    integer (used for HTTP status codes) and `"\n".join(...)` (used for alert
    batches). */
module Text {

  predicate IsDigit(c: char) {
    '0' <= c <= '9'
  }

  function DigitChar(d: nat): (c: char)
    requires d < 10
    ensures IsDigit(c)
  {
    ['0', '1', '2', '3', '4', '5', '6', '7', '8', '9'][d]
  }

  function DigitValue(c: char): (d: nat)
    requires IsDigit(c)
    ensures d < 10
    ensures DigitChar(d) == c
  {
    (c as int - '0' as int)
  }

  /** Decimal digits of a natural number, most significant first, without
      leading zeros. */
  function NatDigits(n: nat): (s: string)
    ensures 0 < |s|
    ensures forall i :: 0 <= i < |s| ==> IsDigit(s[i])
    ensures |s| > 1 ==> s[0] != '0'
    decreases n
  {
    if n < 10 then [DigitChar(n)] else NatDigits(n / 10) + [DigitChar(n % 10)]
  }

  /** Python's `str(n)` for an integer `n`. */
  function Decimal(n: int): (s: string)
    ensures 0 < |s|
    ensures n >= 0 <==> IsDigit(s[0])
    ensures n < 0 ==> s[0] == '-' && s[1..] == NatDigits(-n)
    ensures forall i :: 1 <= i < |s| ==> IsDigit(s[i])
    ensures |s| > 1 && s[0] != '-' ==> s[0] != '0'
  {
    if n >= 0 then NatDigits(n) else "-" + NatDigits(-n)
  }

  /** Reads back a sequence of decimal digits. */
  function ParseDigits(s: string): (n: nat)
    requires forall i :: 0 <= i < |s| ==> IsDigit(s[i])
    decreases |s|
  {
    if |s| == 0 then 0 else 10 * ParseDigits(s[..|s| - 1]) + DigitValue(s[|s| - 1])
  }

  /** Reads back the text `Decimal` writes: an optional '-' and digits. */
  function ParseDecimal(s: string): int
    requires 0 < |s|
    requires forall i :: 1 <= i < |s| ==> IsDigit(s[i])
    requires IsDigit(s[0]) || s[0] == '-'
  {
    if s[0] == '-' then -(ParseDigits(s[1..]) as int) else ParseDigits(s)
  }

  lemma {:induction false} NatDigitsRoundTrip(n: nat)
    ensures ParseDigits(NatDigits(n)) == n
    decreases n
  {
    if n >= 10 {
      var s := NatDigits(n);
      NatDigitsRoundTrip(n / 10);
      assert s[..|s| - 1] == NatDigits(n / 10);
    }
  }

  /** `Decimal` loses no information: the rendered status code can be read back. */
  lemma {:induction false} DecimalRoundTrip(n: int)
    ensures ParseDecimal(Decimal(n)) == n
  {
    if n >= 0 {
      NatDigitsRoundTrip(n);
    } else {
      var s := Decimal(n);
      assert s[1..] == NatDigits(-n);
      NatDigitsRoundTrip(-n);
    }
  }

  /** Python's `sep.join(parts)`. */
  function Join(sep: string, parts: seq<string>): (r: string)
    ensures |parts| == 0 ==> r == ""
    ensures |parts| == 1 ==> r == parts[0]
    ensures |parts| > 0 ==> |parts[0]| <= |r|
    decreases |parts|
  {
    if |parts| == 0 then ""
    else if |parts| == 1 then parts[0]
    else parts[0] + sep + Join(sep, parts[1..])
  }

  /** Joining grows the way the alert batches do: one more part adds the
      separator and that part at the end. */
  lemma {:induction false} JoinAppend(sep: string, parts: seq<string>, x: string)
    requires |parts| > 0
    ensures Join(sep, parts + [x]) == Join(sep, parts) + sep + x
    decreases |parts|
  {
    if |parts| > 1 {
      assert (parts + [x])[1..] == parts[1..] + [x];
      JoinAppend(sep, parts[1..], x);
    } else {
      assert parts + [x] == [parts[0], x];
      assert [parts[0], x][1..] == [x];
    }
  }
}

=== FILE: transition.dfy ===
/** The per-URL alerting state machine: one probe outcome moves an entry one step
    and decides which alert, if any, goes out (the body of the loop in `main`,
    monitor.py lines 94-121). */
module Transition {
  import opened Settings
  import opened Probe

  datatype Status = Up | Down

  /** The persisted state of one URL. */
  datatype Entry = Entry(
    status: Status,
    fail: nat,            // consecutive failed probes
    ok: nat,              // consecutive successful probes
    lastChange: int,      // epoch seconds of the last status change, 0 = never
    lastDownAlert: int    // epoch seconds of the last DOWN alert or reminder, 0 = never
  )

  /** What one step asks the run to send. */
  datatype Alert =
    | Quiet
    | DownAlert(text: string)     // the URL has just gone down
    | Reminder(text: string)      // the URL is still down and a reminder is due
    | Recovery(text: string)      // the URL has just come back up

  datatype StepResult = StepResult(entry: Entry, alert: Alert)

  const RecoveredSuffix: string := " recovered \U{2705}"
  const StillDownSuffix: string := " (still down)"

  /** `empty_entry()`: the state of a URL never seen before. */
  function EmptyEntry(): (e: Entry)
    ensures e.status == Up
    ensures e.fail == 0 && e.ok == 0
    ensures e.lastChange == 0 && e.lastDownAlert == 0
  {
    Entry(Up, 0, 0, 0, 0)
  }

  /** Exactly one of the two streak counters is running. */
  predicate OneStreak(e: Entry) {
    (e.fail == 0) != (e.ok == 0)
  }

  /** A reminder is due for a down URL failing again at `now`. */
  predicate ReminderDue(e: Entry, now: int, cfg: Config) {
    cfg.remindMin > 0 && now - e.lastDownAlert >= cfg.remindMin * 60
  }

  predicate IsDownOrReminder(a: Alert) {
    a.DownAlert? || a.Reminder?
  }

  /** One probe of `url` at time `now`, starting from entry `e`. */
  function Step(e: Entry, probe: Outcome, url: string, now: int, cfg: Config): (r: StepResult)
    // the two streaks are exclusive after every step
    ensures OneStreak(r.entry)
    ensures probe.ok ==> r.entry.ok == e.ok + 1 && r.entry.fail == 0
    ensures !probe.ok ==> r.entry.fail == e.fail + 1 && r.entry.ok == 0
    // recovery is immediate, going down is debounced
    ensures r.entry.status == Up <==> probe.ok || (e.status == Up && e.fail + 1 < cfg.threshold)
  {
    if probe.ok then
      var e' := e.(ok := e.ok + 1, fail := 0);
      if e.status.Down? then
        StepResult(e'.(status := Up, lastChange := now), Recovery(url + RecoveredSuffix))
      else
        StepResult(e', Quiet)
    else
      var e' := e.(fail := e.fail + 1, ok := 0);
      if !e.status.Down? then
        if e'.fail >= cfg.threshold then
          StepResult(e'.(status := Down, lastChange := now, lastDownAlert := now), DownAlert(probe.msg))
        else
          StepResult(e', Quiet)
      else if ReminderDue(e', now, cfg) then
        StepResult(e'.(lastDownAlert := now), Reminder(probe.msg + StillDownSuffix))
      else
        StepResult(e', Quiet)
  }

  /** Alerts correspond exactly to status changes (plus reminders while down),
      and the two timestamps move only together with a status change or an
      alert, to the step's time. */
  lemma AlertsFollowTransitions(e: Entry, probe: Outcome, url: string, now: int, cfg: Config)
    ensures var r := Step(e, probe, url, now, cfg);
            && (r.alert.Recovery? <==> e.status == Down && r.entry.status == Up)
            && (r.alert.DownAlert? <==> e.status == Up && r.entry.status == Down)
            && (r.alert.Reminder? ==> e.status == Down && r.entry.status == Down && !probe.ok)
            && (r.entry.lastChange != e.lastChange ==> r.entry.status != e.status)
            && (r.entry.status != e.status ==> r.entry.lastChange == now)
            && (r.entry.lastDownAlert != e.lastDownAlert ==> IsDownOrReminder(r.alert))
            && (IsDownOrReminder(r.alert) ==> r.entry.lastDownAlert == now)
            && (r.alert.Quiet? ==>
                  r.entry.status == e.status && r.entry.lastChange == e.lastChange
                  && r.entry.lastDownAlert == e.lastDownAlert)
  {
  }

  /** A successful probe of a down URL recovers it at once and sends exactly one
      recovery alert, however long the failure streak was. */
  lemma RecoveryIsImmediate(e: Entry, probe: Outcome, url: string, now: int, cfg: Config)
    requires e.status == Down && probe.ok
    ensures var r := Step(e, probe, url, now, cfg);
            && r.entry == Entry(Up, 0, e.ok + 1, now, e.lastDownAlert)
            && r.alert == Recovery(url + RecoveredSuffix)
  {
  }

  /** A successful probe of an up URL only extends the success streak. */
  lemma SuccessWhileUpIsQuiet(e: Entry, probe: Outcome, url: string, now: int, cfg: Config)
    requires e.status == Up && probe.ok
    ensures Step(e, probe, url, now, cfg) == StepResult(e.(fail := 0, ok := e.ok + 1), Quiet)
  {
  }

  /** A failed probe of an up URL takes it down exactly when the failure streak
      reaches the threshold; the probe message becomes the DOWN alert. */
  lemma FailureWhileUp(e: Entry, probe: Outcome, url: string, now: int, cfg: Config)
    requires e.status == Up && !probe.ok
    ensures var r := Step(e, probe, url, now, cfg);
            if e.fail + 1 >= cfg.threshold then
              r.entry == Entry(Down, e.fail + 1, 0, now, now) && r.alert == DownAlert(probe.msg)
            else
              r.entry == e.(fail := e.fail + 1, ok := 0) && r.alert == Quiet
  {
  }

  /** A failed probe of a down URL sends a reminder, and records its time, exactly
      when reminders are on and enough minutes have passed since the last alert. */
  lemma FailureWhileDown(e: Entry, probe: Outcome, url: string, now: int, cfg: Config)
    requires e.status == Down && !probe.ok
    ensures var r := Step(e, probe, url, now, cfg);
            && r.entry.status == Down
            && r.entry.lastChange == e.lastChange
            && (r.alert.Reminder? <==> cfg.remindMin > 0 && now - e.lastDownAlert >= cfg.remindMin * 60)
            && (r.alert.Reminder? ==> r.alert.text == probe.msg + StillDownSuffix && r.entry.lastDownAlert == now)
            && (!r.alert.Reminder? ==> r.alert.Quiet? && r.entry.lastDownAlert == e.lastDownAlert)
  {
  }

  /** With reminders off, a down URL that keeps failing stays silent. */
  lemma NoReminderWhenOff(e: Entry, probe: Outcome, url: string, now: int, cfg: Config)
    requires e.status == Down && cfg.remindMin <= 0
    ensures !Step(e, probe, url, now, cfg).alert.Reminder?
  {
  }

  /** A clock that went backwards never makes a reminder due. */
  lemma NoReminderWhenClockGoesBack(e: Entry, probe: Outcome, url: string, now: int, cfg: Config)
    requires e.status == Down && now < e.lastDownAlert
    ensures !Step(e, probe, url, now, cfg).alert.Reminder?
  {
  }

  /** The freshly created entry is the only one with neither streak running, and no
      step ever leads back to it. */
  lemma EmptyEntryIsUnreachable(e: Entry, probe: Outcome, url: string, now: int, cfg: Config)
    ensures !OneStreak(EmptyEntry())
    ensures Step(e, probe, url, now, cfg).entry != EmptyEntry()
  {
  }

  /** Probing twice with the same outcome never leaves the entry as it was after
      the first probe: a streak counter always advances. */
  lemma StepHasNoFixpoint(e: Entry, probe: Outcome, url: string, now: int, cfg: Config)
    ensures var e1 := Step(e, probe, url, now, cfg).entry;
            Step(e1, probe, url, now, cfg).entry != e1
  {
  }
}

=== FILE: wrappers.dfy ===
/** Optional values, used for the parts of the monitor's inputs that may be absent
    (a state file that cannot be read, a snapshot without a "urls" field, a run
    that saves nothing). */
module Wrappers {

  datatype Option<+T> = None | Some(value: T) {

    /** The encapsulated value, or `default` when there is none. */
    function GetOr(default: T): (r: T)
      ensures Some? ==> r == value
      ensures None? ==> r == default
    {
      match this
      case Some(v) => v
      case None => default
    }
  }
}
